=== FILE: README.md ===
# react-web-cli launcher, modelled in Dafny

`react-web-cli` is the globally installed launcher of React Web. It does two
things. If the current project already has a local copy of the framework's
command module (`node_modules/react-web/cli.js`), it hands the whole
invocation to that module's `run()`, unless `-v`/`--version` is given with
no command, in which case it prints the versions and exits. Otherwise, when
asked to `init <name>`, it bootstraps a project: it validates the name, asks
for confirmation if the target already exists, creates the directory and a
minimal `package.json` where they are missing, changes into it, runs `npm install` for the framework, and hands off to the
freshly installed module's `init(root, projectName)`.

This project models the decision logic underneath that I/O. It has four parts:

- `Names`: project-name validation (`validatePackageName`). The name must
  match the case-insensitive pattern `^[$A-Z_][0-9A-Z_$]*$`, and the reserved
  word `React` is refused. The pattern is stated three ways: as a character
  predicate (`IsIdentifier`), as a left-to-right matcher (`MatchPattern`) and
  as a scanning method (`ScanIdentifier`). All three are proved equal.
- `Dispatch`: the top-level dispatch. The version query is checked first,
  then the local command module, then the `init <name>` command.
- `Install`: `getInstallPackage`, which picks the `npm install` target from
  the `--version` option. node-semver's `valid` is a function parameter.
- `FileSystem`, `Effects`, `Bootstrap`, `Launcher`: the bootstrap as a state
  machine.
  - A run is a trace of effects: prompt, mkdir, manifest write, chdir,
    install, hand-off, exit.
  - `Replay` applies a trace to an abstract filesystem. The filesystem is a
    set of existing paths plus the manifests stored at some of them. The
    current working directory is an explicit value.
  - The outside world is an `Env` value: the filesystem and working
    directory at start, the launcher's own version, the typed prompt answer,
    the install subprocess's exit code, and `semver.valid`.

Parsed options are `ArgValue`s: absent, a boolean flag, or a string. The
launcher tests `-v`, `--version` and `--verbose` for JavaScript truthiness,
and the model does the same. The `--version` value is also passed on as it
is: to `init`, then to `semver.valid`, and possibly into the install target
verbatim.

Some behaviours follow from the code and are easy to miss:

- A verbose install failure prints its message and makes no exit call. The
  model keeps this as written: that trace has no `Exit` effect.
- A bare `--version` flag combined with `init` reaches `getInstallPackage` as
  the boolean `true`. `semver.valid` returns null for non-strings, so the
  target becomes the text `true`.
- The pattern has no Unicode flag. In that mode, case-insensitive matching
  never maps a non-ASCII character onto an ASCII one. So exactly the ASCII
  letters of either case match.
- The prompt answer is tested by its first character only, and that
  character must be a lower-case `y`. The test is case-sensitive, so an
  answer starting with `Y` cancels.
- The reserved-word test is an exact comparison. `react` and `REACT` are
  valid project names.

## Model

| member | source | states |
|---|---|---|
| `Names.ValidatePackageName` | react-web-cli/index.js:118-136 | None exactly for identifiers other than `React`; refused as not-an-identifier exactly when the character rule fails (including the empty name); refused as reserved exactly for `React` |
| `Names.PatternIsIdentifier` | react-web-cli/index.js:119 | the anchored pattern, read as a matcher, accepts exactly the strings whose first character is a letter, `_` or `$` and whose later characters are letters, digits, `_` or `$` |
| `Names.PartStarAccepts` | react-web-cli/index.js:119 | the starred class followed by the end anchor accepts a string exactly when every character is in the class |
| `Names.ScanIdentifier` | react-web-cli/index.js:119 | a single left-to-right scan returns true exactly for identifiers |
| `Names.ReservedWordIsCaseSensitive` | react-web-cli/index.js:128-135 | `React` is refused as reserved while `react` and `REACT` are accepted |
| `Dispatch.Decide` | react-web-cli/index.js:76-116 | the version query wins whenever it fires; otherwise a local module means delegation; otherwise no command, `init` without a non-empty name, and any other command are the three usage errors; only `init <name>` starts the bootstrap, carrying the name, the verbose flag's truthiness and the raw `--version` value |
| `Dispatch.VersionQueryPrecedesDelegation` | react-web-cli/index.js:76-87 | a version query is answered whether or not the local command module exists |
| `Dispatch.DelegationIgnoresCommands` | react-web-cli/index.js:78-88 | with a local module and no version query, every argument list delegates |
| `Install.GetInstallPackage` | react-web-cli/index.js:204-214 | the target is never empty; a semver-valid value pins `react-web@` to the normalised version, read back by `PinnedVersion`; any other non-empty string is used verbatim; with no truthy value the unpinned package is installed; a bare `--version` flag (the value `true`) is installed as the text `true` |
| `Install.SemverOf` | react-web-cli/index.js:206-207 | only a string is parsed; a non-empty normalised version is found exactly when `semver.valid` yields one for the string, and a non-string value never has one |
| `Install.PinsNormalisedVersion` | react-web-cli/index.js:206-208 | a valid version installs `react-web@<normalised>`, not the raw text |
| `Install.DefaultsToUnpinned` | react-web-cli/index.js:205-213 | with no value or an empty one, `react-web` itself is installed |
| `Effects.Replay` | react-web-cli/index.js:178-193 | applying the mkdir, manifest-write and chdir steps never removes a path and keeps every manifest at an existing path |
| `Effects.Step` | react-web-cli/index.js:178-193 | a mkdir, manifest write or chdir step never removes a path and keeps every manifest at an existing path; every other step leaves filesystem and working directory unchanged, and only chdir moves the working directory |
| `Bootstrap.ValidNameIsPlainSegment` | react-web-cli/index.js:170-171 | a validated name is one path segment, so `basename(resolve(cwd, name))` is the name itself |
| `Bootstrap.Confirms` | react-web-cli/index.js:160 | an answer continues exactly when `y` is a prefix of it |
| `Bootstrap.AnswerFirstCharacterDecides` | react-web-cli/index.js:160-165 | answers beginning with `y` (such as `yes`) continue; answers beginning with `Y` or `n`, and the empty answer, cancel |
| `Bootstrap.InstallOutcome` | react-web-cli/index.js:216-241 | the install outcome never touches the filesystem; every step is the failure report, `exit(1)` or `init(root, projectName)`; it reports the failure exactly when the exit code is non-zero; it hands off to `init(root, projectName)` exactly when the exit code is 0, and then as its last step; it exits, with status 1, exactly on a non-verbose failure |
| `Bootstrap.Preparation` | react-web-cli/index.js:169-201 | the steps before the install finishes end nothing and never prompt; the mkdir of the root never comes after the manifest write into it; every step but the last is a mkdir, manifest write or chdir, the second-to-last is the chdir into the root, and the last is the install of the `getInstallPackage` target; they create the root exactly when it is absent and write a manifest exactly when none exists; every mkdir is of the root and every write is `{name, "0.0.1", private: true}` at the root's manifest path |
| `Bootstrap.ScaffoldSteps` | react-web-cli/index.js:178-201 | an optional mkdir, then an optional manifest write, then the chdir and the install: every step but the install mutates, nothing ends the run or prompts, a mkdir or write appears exactly when its step is present, and no mkdir follows a write |
| `Bootstrap.MkdirStepsEffect` | react-web-cli/index.js:178-180 | the directory step adds the root to the filesystem and changes nothing else |
| `Bootstrap.ManifestStepsEffect` | react-web-cli/index.js:182-191 | the manifest step adds the root's manifest path, stores `{basename, "0.0.1", private: true}` only where no file existed, leaves an existing manifest untouched and keeps the working directory |
| `Bootstrap.LastStepsEffect` | react-web-cli/index.js:193-201 | changing into the root and starting the install moves the working directory to the root and changes nothing else |
| `Bootstrap.CreateProject` | react-web-cli/index.js:169-202 | project creation never prompts and ends with at most one terminal step |
| `Bootstrap.Init` | react-web-cli/index.js:138-146 | the run is non-empty and ends with at most one terminal step; the prompt appears exactly when the name is valid and a path of that name exists |
| `Bootstrap.PreparationEffect` | react-web-cli/index.js:169-193 | after the preparation the root and its manifest path exist, the working directory is the root, and a manifest `{name, "0.0.1", private}` is stored only where none existed |
| `Bootstrap.LeadShape` | react-web-cli/index.js:141-201 | the optional prompt and the preparation end nothing; before the install every step is the prompt or a filesystem or directory change; the lead ends with the chdir into the root and the install |
| `Bootstrap.ProceedingTrace` | react-web-cli/index.js:141-202 | a run past validation and confirmation is the optional prompt and the preparation, which end nothing, followed by the install outcome; before the install every step is the prompt or a filesystem or directory change, and the chdir into the root comes straight before the install |
| `Bootstrap.ProceedingState` | react-web-cli/index.js:141-202 | such a run creates and writes exactly what the preparation does and leaves the state it leaves: the prompt and the install outcome change nothing |
| `Bootstrap.RefusedNameStops` | react-web-cli/index.js:118-139 | a refused name reports and exits with status 1 before any prompt, change or install |
| `Bootstrap.DeclineChangesNothing` | react-web-cli/index.js:159-166 | an answer not starting with lower-case `y` exits with status 0, installs nothing and leaves filesystem and working directory unchanged |
| `Bootstrap.ProceedScaffolds` | react-web-cli/index.js:169-202 | a proceeding run creates the root only if it was absent and writes a manifest only if none existed; it adds exactly the root and its manifest path; writes `{name, "0.0.1", private: true}` only where no manifest existed and leaves an existing one untouched; ends in the root; installs the `getInstallPackage` target exactly once, straight after changing into the root, with no other install |
| `Bootstrap.ProceedInstallsOnce` | react-web-cli/index.js:193-201 | a proceeding run starts exactly one install, of the `getInstallPackage` target, and it comes straight after the chdir into the root |
| `Bootstrap.InstallOutcomes` | react-web-cli/index.js:216-241 | a failed install reports the failure, and only a failed one does; a failed non-verbose install exits 1 and never calls `init`; a failed verbose install neither exits nor calls `init`; a successful one calls `init(root, name)` exactly once, last, with root the directory changed into |
| `Bootstrap.FailureReported` | react-web-cli/index.js:216-236 | a proceeding run reports the install failure exactly when the install exits non-zero |
| `Bootstrap.SuccessHandsOff` | react-web-cli/index.js:216-241 | after a successful install the run makes no exit call and ends by calling `init` once, with the root it changed into and the project name |
| `Bootstrap.InitExitStatus` | react-web-cli/index.js:118-241 | `init` ends with status 1 exactly for a refused name or a failed non-verbose install, with status 0 exactly for a declined prompt, and otherwise makes no exit call |
| `Launcher.Launch` | react-web-cli/index.js:76-116 | every run ends with at most one terminal step; the run is just the local `run()` exactly when no version query fires and the local module exists; an exit with status 1 never follows a hand-off to `init` |
| `Launcher.LocalVersion` | react-web-cli/index.js:246-250 | the local framework's version is known exactly when its manifest is stored, and is that manifest's `version` field |
| `Launcher.VersionQueryAnswered` | react-web-cli/index.js:243-252 | the version query prints the launcher's version and the local framework's, or the fallback when the local manifest is unreadable, then exits with status 0 |
| `Launcher.VersionQueryReadsOnlyVersions` | react-web-cli/index.js:243-252 | the version query's output depends only on the launcher's version and the local manifest's version: the local module, the prompt answer, the install result and other options do not matter, and the state is unchanged |
| `Launcher.DelegationOnly` | react-web-cli/index.js:78-87 | delegation runs the local `run()` and nothing else: no prompt, install or filesystem change |
| `Launcher.UsageErrorsExit` | react-web-cli/index.js:89-115 | without a local module, anything other than `init <name>` is a usage error, exits with status 1 and changes nothing |
| `Launcher.OnlyInitBootstraps` | react-web-cli/index.js:96-105 | a prompt, an install or any filesystem change happens only on the `init <name>` path with no local module |
| `Launcher.ExitStatuses` | react-web-cli/index.js:89-253 | exit status 1 exactly for usage errors, refused names and failed non-verbose installs; status 0 exactly for the version query and a declined prompt; otherwise no exit call |

## Left out

- Console output: messages are modelled as tags (`BadName`, `Usage`, `Canceled`, `InstallFailed`). The informational lines and the captured npm stdout/stderr are not modelled.
- The `npm` subprocesses (`exec`, `cross-spawn`): only their exit code is modelled, as an input. What npm writes to disk, and the exact argument vector, are not modelled. The install step is a `Install(target, verbose)` effect.
- The `require` of the local `cli.js` and `package.json`, and the `run()` / `init()` internals: these are foreign modules, and calling them is a hand-off effect. At dispatch time, whether `cli.js` exists is read from the abstract filesystem (index.js:79-80).
- Loading the module after the install: once the install exits with status 0, the model assumes `require(CLI_MODULE_PATH())` succeeds (index.js:225, 238) and always hands off to `init`. If the install put something else in place of `react-web`, for instance `init Foo --version lodash`, the real `require` throws and the process dies with an uncaught exception. The model does not show that failure.
- The install command line: the non-verbose path splices the target into a shell command string (index.js:217). A verbatim `--version` value with spaces or shell metacharacters is therefore split or interpreted by the shell, not installed as one package argument. The verbose path passes it as a single argument (index.js:231). The model's `Install(target, verbose)` carries the target as one string in both cases.
- node-semver's `valid`: a parameter of the model, not an implementation of Semantic Versioning 2.0.0.
- minimist: arguments arrive already parsed. Its coercion of numeric-looking values to numbers is not modelled, so every positional command and option value is a string or a boolean.
- The `prompt` library: the answer is an input string. Its re-ask validator, its default `no` and its callback errors are not modelled. An empty answer cancels, just as the default does.
- `path.resolve` and `path.basename`: modelled only for a name that is a single path segment. Validated names are always single segments (`Bootstrap.ValidNameIsPlainSegment`).
- Files versus directories: the filesystem does not distinguish them. A regular file named like the project would make the real manifest write fail; the model does not show that error.
- Manifest contents: a manifest is only its `name`, `version` and `private` fields. An existing manifest is kept whole whatever it holds.
- Asynchronous callbacks: the prompt and install callbacks are modelled as steps in sequence. Nothing else runs concurrently.
- Verbose install failure: the model does not say what exit status Node.js reports once the launcher stops without an exit call.

=== FILE: bootstrap.dfy ===
/**
 * The bootstrap path: `init`, `createAfterConfirmation`, `createProject` and
 * the install outcome of `run` / `runVerbose`, as the trace of effects they
 * produce from an initial environment.
 */
module Bootstrap {
  import opened Wrappers
  import opened FileSystem
  import opened Names
  import opened Dispatch
  import opened Install
  import opened Effects

  /**
   * Everything the launcher learns from outside: the filesystem and working
   * directory at start, its own version, the answer typed at the prompt, the
   * install subprocess's exit code, and node-semver's `valid`.
   */
  datatype Env = Env(
    fs: Fs,
    cwd: Path,
    toolVersion: string,
    answer: string,
    installExit: int,
    semverValid: string -> Option<string>)

  function Start(env: Env): State {
    State(env.fs, env.cwd)
  }

  /** The prompt answer lets the bootstrap continue: it begins with a lower-case `y`. */
  function Confirms(answer: string): (ok: bool)
    ensures ok <==> "y" <= answer
  {
    |answer| > 0 && answer[0] == 'y'
  }

  /** Only the first character decides, and only a lower-case `y` continues. */
  lemma AnswerFirstCharacterDecides(rest: string)
    ensures Confirms("y" + rest) && Confirms("yes" + rest)
    ensures !Confirms("Y" + rest) && !Confirms("n" + rest) && !Confirms("")
  {
  }

  /** A validated project name is a single path segment, so resolving it appends exactly that segment. */
  lemma ValidNameIsPlainSegment(cwd: Path, name: string)
    requires ValidatePackageName(name).None?
    ensures IsPlainSegment(name)
    ensures Basename(Resolve(cwd, name)) == name
  {
  }

  /**
   * What happens once the install subprocess reports its exit code: only a
   * zero code hands off to the local `init`, and only a non-verbose failure
   * exits (with status 1). Nothing here touches the filesystem.
   */
  function InstallOutcome(root: Path, projectName: string, verbose: bool, exitCode: int): (t: seq<Effect>)
    ensures |t| > 0 && Sequenced(t)
    ensures forall i :: 0 <= i < |t| ==> !Mutates(t[i]) && !t[i].Confirm?
    ensures CallsInit(t) <==> exitCode == 0
    ensures exitCode == 0 ==> t[|t| - 1] == CallInit(root, projectName)
    ensures Exits(t) <==> exitCode != 0 && !verbose
    ensures ExitStatus(t) == Some(1) <==> exitCode != 0 && !verbose
    ensures Reports(t, InstallFailed) <==> exitCode != 0
    ensures forall i :: 0 <= i < |t| ==>
      t[i] == Report(InstallFailed) || t[i] == Exit(1) || t[i] == CallInit(root, projectName)
  {
    if exitCode == 0 then
      var steps := [CallInit(root, projectName)];
      assert steps[0].CallInit?;
      steps
    else if verbose then
      var steps := [Report(InstallFailed)];
      assert steps[0] == Report(InstallFailed);
      steps
    else
      var steps := [Report(InstallFailed), Exit(1)];
      assert steps[0] == Report(InstallFailed) && steps[1].Exit?;
      steps
  }

  /** The mkdir step of `createProject`: only when the root is absent. */
  function MkdirSteps(root: Path, fs: Fs): seq<Effect> {
    if root in fs.paths then [] else [MakeDir(root)]
  }

  /** The manifest step of `createProject`: only when no manifest file exists. */
  function ManifestSteps(root: Path, fs: Fs): seq<Effect> {
    if ManifestPath(root) in fs.paths then []
    else [WriteManifest(ManifestPath(root), NewManifest(Basename(root)))]
  }

  /** Replaying the mkdir step adds the root and nothing else. */
  lemma MkdirStepsEffect(root: Path, s: State)
    ensures Replay(MkdirSteps(root, s.fs), s) == s.(fs := s.fs.(paths := s.fs.paths + {root}))
  {
    if root !in s.fs.paths {
      ReplaySingle(MakeDir(root), s);
    }
  }

  /** Replaying the manifest step adds the manifest path and stores a manifest only where none existed. */
  lemma ManifestStepsEffect(root: Path, s: State)
    ensures var r := Replay(ManifestSteps(root, s.fs), s);
      && r.cwd == s.cwd
      && r.fs.paths == s.fs.paths + {ManifestPath(root)}
      && (ManifestPath(root) in s.fs.paths ==> r.fs.manifests == s.fs.manifests)
      && (ManifestPath(root) !in s.fs.paths ==>
            r.fs.manifests == s.fs.manifests[ManifestPath(root) := NewManifest(Basename(root))])
  {
    if ManifestPath(root) !in s.fs.paths {
      ReplaySingle(ManifestSteps(root, s.fs)[0], s);
    }
  }

  /** Replaying the chdir and the install moves to the root and changes nothing else. */
  lemma LastStepsEffect(root: Path, install: Effect, s: State)
    requires install.Install?
    ensures Replay([ChangeDir(root), install], s) == s.(cwd := root)
  {
    assert [ChangeDir(root), install] == [ChangeDir(root)] + [install];
    ReplayAppend([ChangeDir(root)], [install], s);
    ReplaySingle(ChangeDir(root), s);
    ReplaySingle(install, s.(cwd := root));
  }

  /**
   * The shape of the steps of `createProject`: an optional mkdir of the root,
   * then an optional manifest write, then the chdir into the root and the
   * install. Nothing ends the run or prompts, every step before the install
   * mutates, and the directory step always precedes the manifest write.
   */
  lemma ScaffoldSteps(made: seq<Effect>, written: seq<Effect>, root: Path, file: Path, m: Manifest, install: Effect)
    requires made == [] || made == [MakeDir(root)]
    requires written == [] || written == [WriteManifest(file, m)]
    requires install.Install?
    ensures var p := made + written + [ChangeDir(root), install];
      && |p| >= 2 && p[|p| - 1] == install && p[|p| - 2] == ChangeDir(root)
      && (forall i :: 0 <= i < |p| - 1 ==> Mutates(p[i]))
      && (forall i :: 0 <= i < |p| ==> !IsTerminal(p[i]) && !p[i].Confirm?)
      && (MakesDir(p, root) <==> made != [])
      && (WritesManifest(p, file) <==> written != [])
      && (forall i :: 0 <= i < |p| && p[i].MakeDir? ==> p[i].dir == root)
      && (forall i :: 0 <= i < |p| && p[i].WriteManifest? ==> p[i] == WriteManifest(file, m))
      && (forall i, j :: 0 <= i < j < |p| ==> !(p[i].WriteManifest? && p[j].MakeDir?))
  {
    var last := [ChangeDir(root), install];
    var p := made + written + last;
    if made == [] && written == [] {
      assert p == [ChangeDir(root), install];
    } else if made == [] {
      assert p == [WriteManifest(file, m), ChangeDir(root), install];
      assert p[0].WriteManifest?;
    } else if written == [] {
      assert p == [MakeDir(root), ChangeDir(root), install];
      assert p[0] == MakeDir(root);
    } else {
      assert p == [MakeDir(root), WriteManifest(file, m), ChangeDir(root), install];
      assert p[0] == MakeDir(root) && p[1].WriteManifest?;
    }
  }

  /**
   * The part of `createProject` before the install finishes: make the root
   * only if it is absent, write the minimal manifest only if there is none
   * (checked after the directory step), change into the root and start the
   * install. No step ends the run or prompts.
   */
  function Preparation(name: string, verbose: bool, pkg: ArgValue, env: Env): (p: seq<Effect>)
    requires IsPlainSegment(name)
    ensures |p| >= 2 && p[|p| - 1] == Install(GetInstallPackage(pkg, env.semverValid), verbose)
    ensures p[|p| - 2] == ChangeDir(Resolve(env.cwd, name))
    ensures forall i :: 0 <= i < |p| - 1 ==> Mutates(p[i])
    ensures forall i :: 0 <= i < |p| ==> !IsTerminal(p[i]) && !p[i].Confirm?
    ensures MakesDir(p, Resolve(env.cwd, name)) <==> Resolve(env.cwd, name) !in env.fs.paths
    ensures WritesManifest(p, ManifestPath(Resolve(env.cwd, name))) <==>
      ManifestPath(Resolve(env.cwd, name)) !in env.fs.paths
    ensures forall i :: 0 <= i < |p| && p[i].MakeDir? ==> p[i].dir == Resolve(env.cwd, name)
    ensures forall i :: 0 <= i < |p| && p[i].WriteManifest? ==>
      p[i] == WriteManifest(ManifestPath(Resolve(env.cwd, name)), Manifest(name, "0.0.1", true))
    ensures forall i, j :: 0 <= i < j < |p| ==> !(p[i].WriteManifest? && p[j].MakeDir?)
  {
    var root := Resolve(env.cwd, name);
    var made := MkdirSteps(root, env.fs);
    var afterMkdir := Replay(made, Start(env)).fs;
    MkdirStepsEffect(root, Start(env));
    assert ManifestPath(root) in afterMkdir.paths <==> ManifestPath(root) in env.fs.paths;
    var written := ManifestSteps(root, afterMkdir);
    var last := [ChangeDir(root), Install(GetInstallPackage(pkg, env.semverValid), verbose)];
    ScaffoldSteps(made, written, root, ManifestPath(root), NewManifest(Basename(root)), last[1]);
    made + written + last
  }

  /**
   * `createProject` followed by the outcome of `run` or `runVerbose`. It
   * never prompts and ends with at most one terminal step.
   */
  function CreateProject(name: string, verbose: bool, pkg: ArgValue, env: Env): (t: seq<Effect>)
    requires IsPlainSegment(name)
    ensures |t| > 0 && Sequenced(t) && !Prompts(t)
  {
    var root := Resolve(env.cwd, name);
    var p := Preparation(name, verbose, pkg, env);
    var tail := InstallOutcome(root, Basename(root), verbose, env.installExit);
    SequencedAppend(p, tail);
    IndexOfAppend(p, tail);
    p + tail
  }

  /** `init`: validate, ask for confirmation only when the target exists, then create the project. */
  function Init(name: string, verbose: bool, pkg: ArgValue, env: Env): (t: seq<Effect>)
    ensures |t| > 0 && Sequenced(t)
    ensures Prompts(t) <==> ValidatePackageName(name).None? && Resolve(env.cwd, name) in env.fs.paths
  {
    match ValidatePackageName(name)
    case Some(reason) => [Report(BadName(reason)), Exit(1)]
    case None =>
      if Resolve(env.cwd, name) in env.fs.paths then
        if Confirms(env.answer) then
          SequencedAppend([Confirm(name)], CreateProject(name, verbose, pkg, env));
          assert ([Confirm(name)] + CreateProject(name, verbose, pkg, env))[0].Confirm?;
          [Confirm(name)] + CreateProject(name, verbose, pkg, env)
        else
          assert [Confirm(name), Report(Canceled), Exit(0)][0].Confirm?;
          [Confirm(name), Report(Canceled), Exit(0)]
      else
        CreateProject(name, verbose, pkg, env)
  }

  /**
   * What the preparation leaves behind: the root and its manifest path exist,
   * the working directory is the root, and a manifest is stored only where
   * none existed.
   */
  lemma PreparationEffect(name: string, verbose: bool, pkg: ArgValue, env: Env)
    requires IsPlainSegment(name)
    ensures var root := Resolve(env.cwd, name);
      var r := Replay(Preparation(name, verbose, pkg, env), Start(env));
      && r.cwd == root
      && r.fs.paths == env.fs.paths + {root, ManifestPath(root)}
      && (ManifestPath(root) in env.fs.paths ==> r.fs.manifests == env.fs.manifests)
      && (ManifestPath(root) !in env.fs.paths ==>
            r.fs.manifests == env.fs.manifests[ManifestPath(root) := NewManifest(name)])
  {
    var s0 := Start(env);
    var root := Resolve(env.cwd, name);
    var made := MkdirSteps(root, env.fs);
    var s1 := Replay(made, s0);
    MkdirStepsEffect(root, s0);
    assert ManifestPath(root) != root;
    var written := ManifestSteps(root, s1.fs);
    var s2 := Replay(written, s1);
    ManifestStepsEffect(root, s1);
    var last := [ChangeDir(root), Install(GetInstallPackage(pkg, env.semverValid), verbose)];
    LastStepsEffect(root, last[1], s2);
    ReplayAppend(made, written, s0);
    ReplayAppend(made + written, last, s0);
    assert Preparation(name, verbose, pkg, env) == made + written + last;
  }

  /** The bootstrap goes past validation and, if there was a prompt, past it. */
  predicate Proceeds(name: string, env: Env) {
    && ValidatePackageName(name).None?
    && (Resolve(env.cwd, name) in env.fs.paths ==> Confirms(env.answer))
  }

  /** Everything `init` emits before the install outcome. */
  function Lead(name: string, verbose: bool, pkg: ArgValue, env: Env): seq<Effect>
    requires IsPlainSegment(name)
  {
    (if Resolve(env.cwd, name) in env.fs.paths then [Confirm(name)] else [])
    + Preparation(name, verbose, pkg, env)
  }

  /**
   * The lead ends nothing; before the install it holds only the prompt and
   * filesystem or directory changes, and it ends like the preparation: the
   * chdir into the root, then the install.
   */
  lemma LeadShape(name: string, verbose: bool, pkg: ArgValue, env: Env)
    requires IsPlainSegment(name)
    ensures var lead := Lead(name, verbose, pkg, env);
      var p := Preparation(name, verbose, pkg, env);
      && (forall i :: 0 <= i < |lead| ==> !IsTerminal(lead[i]))
      && (forall i :: 0 <= i < |lead| - 1 ==> lead[i].Confirm? || Mutates(lead[i]))
      && |lead| >= 2
      && lead[|lead| - 1] == p[|p| - 1]
      && lead[|lead| - 2] == p[|p| - 2]
  {
    var confirm: seq<Effect> := if Resolve(env.cwd, name) in env.fs.paths then [Confirm(name)] else [];
    IndexOfAppend(confirm, Preparation(name, verbose, pkg, env));
  }

  /**
   * A proceeding `init` is its lead followed by the install outcome, and the
   * lead ends nothing and ends with the install.
   */
  lemma ProceedingTrace(name: string, verbose: bool, pkg: ArgValue, env: Env)
    requires Proceeds(name, env)
    ensures IsPlainSegment(name)
    ensures var root := Resolve(env.cwd, name);
      var lead := Lead(name, verbose, pkg, env);
      var p := Preparation(name, verbose, pkg, env);
      && Init(name, verbose, pkg, env) == lead + InstallOutcome(root, name, verbose, env.installExit)
      && (forall i :: 0 <= i < |lead| ==> !IsTerminal(lead[i]))
      && (forall i :: 0 <= i < |lead| - 1 ==> lead[i].Confirm? || Mutates(lead[i]))
      && |lead| >= 2
      && lead[|lead| - 1] == p[|p| - 1]
      && lead[|lead| - 2] == p[|p| - 2]
  {
    ValidNameIsPlainSegment(env.cwd, name);
    LeadShape(name, verbose, pkg, env);
    var root := Resolve(env.cwd, name);
    var p := Preparation(name, verbose, pkg, env);
    var tail := InstallOutcome(root, name, verbose, env.installExit);
    if root in env.fs.paths {
      assert [Confirm(name)] + (p + tail) == ([Confirm(name)] + p) + tail;
    }
  }

  /**
   * The exit status `init` ends with: 1 for a refused name or a failed
   * non-verbose install, 0 for a declined prompt, and no exit call otherwise.
   */
  lemma InitExitStatus(name: string, verbose: bool, pkg: ArgValue, env: Env)
    ensures var s := ExitStatus(Init(name, verbose, pkg, env));
      && (s == Some(1) <==>
            ValidatePackageName(name).Some? || (Proceeds(name, env) && env.installExit != 0 && !verbose))
      && (s == Some(0) <==>
            ValidatePackageName(name).None? && Resolve(env.cwd, name) in env.fs.paths && !Confirms(env.answer))
      && (s.None? || s == Some(0) || s == Some(1))
  {
    if Proceeds(name, env) {
      ProceedingTrace(name, verbose, pkg, env);
      var root := Resolve(env.cwd, name);
      ExitStatusOfAppend(Lead(name, verbose, pkg, env), InstallOutcome(root, name, verbose, env.installExit));
    }
  }

  /**
   * A proceeding `init` creates and writes exactly what the preparation does,
   * and leaves the state the preparation leaves: the prompt and the install
   * outcome change nothing.
   */
  lemma ProceedingState(name: string, verbose: bool, pkg: ArgValue, env: Env)
    requires Proceeds(name, env)
    ensures IsPlainSegment(name)
    ensures var root := Resolve(env.cwd, name);
      var t := Init(name, verbose, pkg, env);
      var p := Preparation(name, verbose, pkg, env);
      && (MakesDir(t, root) <==> MakesDir(p, root))
      && (WritesManifest(t, ManifestPath(root)) <==> WritesManifest(p, ManifestPath(root)))
      && Replay(t, Start(env)) == Replay(p, Start(env))
  {
    ProceedingTrace(name, verbose, pkg, env);
    var root := Resolve(env.cwd, name);
    var p := Preparation(name, verbose, pkg, env);
    var confirm: seq<Effect> := if root in env.fs.paths then [Confirm(name)] else [];
    var tail := InstallOutcome(root, name, verbose, env.installExit);
    assert Lead(name, verbose, pkg, env) == confirm + p;
    InertAround(confirm, p, tail, Start(env), root, ManifestPath(root));
  }

  /** A refused name ends the run at once with status 1, before any prompt or change. */
  lemma RefusedNameStops(name: string, verbose: bool, pkg: ArgValue, env: Env)
    requires ValidatePackageName(name).Some?
    ensures var t := Init(name, verbose, pkg, env);
      && t == [Report(BadName(ValidatePackageName(name).value)), Exit(1)]
      && Replay(t, Start(env)) == Start(env)
  {
    var t := Init(name, verbose, pkg, env);
    ReplayInert(t, Start(env));
  }

  /** Declining the prompt exits with status 0 and leaves the filesystem and working directory as they were. */
  lemma DeclineChangesNothing(name: string, verbose: bool, pkg: ArgValue, env: Env)
    requires ValidatePackageName(name).None?
    requires Resolve(env.cwd, name) in env.fs.paths && !Confirms(env.answer)
    ensures var t := Init(name, verbose, pkg, env);
      && t == [Confirm(name), Report(Canceled), Exit(0)]
      && Replay(t, Start(env)) == Start(env)
      && !Installs(t)
  {
    var t := Init(name, verbose, pkg, env);
    ReplayInert(t, Start(env));
  }

  /**
   * A proceeding `init` creates the root only if it was absent, writes the
   * minimal manifest only where none existed and leaves an existing one
   * alone, ends in the root, and starts the install of the resolved target.
   */
  lemma ProceedScaffolds(name: string, verbose: bool, pkg: ArgValue, env: Env)
    requires Proceeds(name, env)
    ensures IsPlainSegment(name)
    ensures var t := Init(name, verbose, pkg, env);
      var root := Resolve(env.cwd, name);
      var r := Replay(t, Start(env));
      && Basename(root) == name
      && (MakesDir(t, root) <==> root !in env.fs.paths)
      && (WritesManifest(t, ManifestPath(root)) <==> ManifestPath(root) !in env.fs.paths)
      && r.cwd == root
      && r.fs.paths == env.fs.paths + {root, ManifestPath(root)}
      && (ManifestPath(root) in env.fs.paths ==> r.fs.manifests == env.fs.manifests)
      && (ManifestPath(root) !in env.fs.paths ==>
            r.fs.manifests == env.fs.manifests[ManifestPath(root) := Manifest(name, "0.0.1", true)])
      && InstallsOnceIn(t, root, Install(GetInstallPackage(pkg, env.semverValid), verbose))
  {
    ProceedingTrace(name, verbose, pkg, env);
    ProceedingState(name, verbose, pkg, env);
    PreparationEffect(name, verbose, pkg, env);
    ProceedInstallsOnce(name, verbose, pkg, env);
  }

  /**
   * A proceeding `init` starts exactly one install, of the resolved target,
   * straight after changing into the root.
   */
  lemma ProceedInstallsOnce(name: string, verbose: bool, pkg: ArgValue, env: Env)
    requires Proceeds(name, env)
    ensures IsPlainSegment(name)
    ensures InstallsOnceIn(Init(name, verbose, pkg, env), Resolve(env.cwd, name),
                           Install(GetInstallPackage(pkg, env.semverValid), verbose))
  {
    ProceedingTrace(name, verbose, pkg, env);
    var root := Resolve(env.cwd, name);
    var p := Preparation(name, verbose, pkg, env);
    InstallOnceOfAppend(Lead(name, verbose, pkg, env), InstallOutcome(root, name, verbose, env.installExit),
                        root, p[|p| - 1]);
  }

  /**
   * After the install: a failed non-verbose install exits with status 1, a
   * failed verbose one only reports and makes no exit call, and neither calls
   * `init`; a successful install calls the local `init` exactly once, last,
   * with the directory the run changed into and the project name.
   */
  lemma InstallOutcomes(name: string, verbose: bool, pkg: ArgValue, env: Env)
    requires Proceeds(name, env)
    ensures IsPlainSegment(name)
    ensures var t := Init(name, verbose, pkg, env);
      var root := Resolve(env.cwd, name);
      && (env.installExit != 0 && !verbose ==> ExitStatus(t) == Some(1) && !CallsInit(t))
      && (env.installExit != 0 && verbose ==> !Exits(t) && !CallsInit(t))
      && (Reports(t, InstallFailed) <==> env.installExit != 0)
      && (env.installExit == 0 ==>
            && !Exits(t)
            && t[|t| - 1] == CallInit(Replay(t, Start(env)).cwd, name)
            && Replay(t, Start(env)).cwd == root
            && forall i :: 0 <= i < |t| - 1 ==> !t[i].CallInit?)
  {
    ProceedingTrace(name, verbose, pkg, env);
    var root := Resolve(env.cwd, name);
    IndexOfAppend(Lead(name, verbose, pkg, env), InstallOutcome(root, name, verbose, env.installExit));
    FailureReported(name, verbose, pkg, env);
    if env.installExit == 0 {
      SuccessHandsOff(name, verbose, pkg, env);
    }
  }

  /** A proceeding run reports the install failure exactly when the install fails. */
  lemma FailureReported(name: string, verbose: bool, pkg: ArgValue, env: Env)
    requires Proceeds(name, env)
    ensures Reports(Init(name, verbose, pkg, env), InstallFailed) <==> env.installExit != 0
  {
    ProceedingTrace(name, verbose, pkg, env);
    var lead := Lead(name, verbose, pkg, env);
    ReportsOfAppend(lead, InstallOutcome(Resolve(env.cwd, name), name, verbose, env.installExit), InstallFailed);
    assert forall i :: 0 <= i < |lead| ==> lead[i] != Report(InstallFailed);
  }

  /**
   * A proceeding run whose install succeeds makes no exit call and ends by
   * calling `init` once, with the directory it changed into, the root.
   */
  lemma SuccessHandsOff(name: string, verbose: bool, pkg: ArgValue, env: Env)
    requires Proceeds(name, env) && env.installExit == 0
    ensures IsPlainSegment(name)
    ensures var t := Init(name, verbose, pkg, env);
      && !Exits(t)
      && t[|t| - 1] == CallInit(Replay(t, Start(env)).cwd, name)
      && Replay(t, Start(env)).cwd == Resolve(env.cwd, name)
      && forall i :: 0 <= i < |t| - 1 ==> !t[i].CallInit?
  {
    ProceedingTrace(name, verbose, pkg, env);
    ProceedingState(name, verbose, pkg, env);
    PreparationEffect(name, verbose, pkg, env);
    EndsWith(Lead(name, verbose, pkg, env), CallInit(Resolve(env.cwd, name), name));
  }
}

=== FILE: dispatch.dfy ===
/**
 * The launcher's top-level dispatch: the version query, delegation to a
 * local command module, and the positional-command switch, decided from the
 * parsed arguments and whether the local `cli.js` exists.
 */
module Dispatch {

  /**
   * An option value as the argument parser leaves it: missing, a bare
   * boolean flag (`--verbose`, `--no-verbose`), or a string (`--version 2.0.0`).
   */
  datatype ArgValue = Absent | Flag(on: bool) | Text(s: string)

  /** JavaScript truthiness of an option value. */
  predicate Truthy(v: ArgValue) {
    match v
    case Absent => false
    case Flag(b) => b
    case Text(s) => s != ""
  }

  /** Positional commands plus the options the launcher reads. */
  datatype Args = Args(commands: seq<string>, v: ArgValue, version: ArgValue, verbose: ArgValue)

  /** The launcher's own usage errors; each ends the process with status 1. */
  datatype UsageError = NoCommand | MissingProjectName | UnknownCommand(command: string)

  /** The single outcome of dispatch. */
  datatype Decision =
    | ShowVersion
    | Delegate
    | Reject(error: UsageError)
    | StartInit(name: string, verbose: bool, package: ArgValue)

  /** `checkForVersionArgument` fires: no positional command and `-v` or `--version` set. */
  predicate IsVersionQuery(a: Args) {
    |a.commands| == 0 && (Truthy(a.v) || Truthy(a.version))
  }

  /** The positional commands name `init` followed by a non-empty project name. */
  predicate IsInitCommand(commands: seq<string>) {
    |commands| >= 2 && commands[0] == "init" && commands[1] != ""
  }

  /**
   * Dispatch in the order the launcher makes its checks: the version query,
   * then the local command module, then the positional commands.
   */
  function Decide(a: Args, cliExists: bool): (d: Decision)
    ensures d.ShowVersion? <==> IsVersionQuery(a)
    ensures d.Delegate? <==> !IsVersionQuery(a) && cliExists
    ensures d.StartInit? <==> !IsVersionQuery(a) && !cliExists && IsInitCommand(a.commands)
    ensures d.StartInit? ==>
      d.name == a.commands[1] && d.verbose == Truthy(a.verbose) && d.package == a.version
    ensures d == Reject(NoCommand) <==> !IsVersionQuery(a) && !cliExists && |a.commands| == 0
    ensures d == Reject(MissingProjectName) <==>
      && !cliExists && |a.commands| > 0 && a.commands[0] == "init"
      && (|a.commands| < 2 || a.commands[1] == "")
    ensures (d.Reject? && d.error.UnknownCommand?) <==>
      !cliExists && |a.commands| > 0 && a.commands[0] != "init"
    ensures d.Reject? && d.error.UnknownCommand? ==> d.error.command == a.commands[0]
  {
    if IsVersionQuery(a) then ShowVersion
    else if cliExists then Delegate
    else if |a.commands| == 0 then Reject(NoCommand)
    else if a.commands[0] == "init" then
      if |a.commands| < 2 || a.commands[1] == "" then Reject(MissingProjectName)
      else StartInit(a.commands[1], Truthy(a.verbose), a.version)
    else Reject(UnknownCommand(a.commands[0]))
  }

  /** The version query is answered even where a local command module exists. */
  lemma VersionQueryPrecedesDelegation(a: Args)
    requires IsVersionQuery(a)
    ensures Decide(a, true) == ShowVersion && Decide(a, false) == ShowVersion
  {
  }

  /**
   * Once no version query fires, an existing local command module takes the
   * invocation whatever the positional commands and options are.
   */
  lemma DelegationIgnoresCommands(a: Args, b: Args)
    requires !IsVersionQuery(a) && !IsVersionQuery(b)
    ensures Decide(a, true) == Decide(b, true) == Delegate
  {
  }
}

=== FILE: effects.dfy ===
/**
 * The launcher's observable steps as a trace of effects, and the state
 * machine that replays a trace over the abstract filesystem and the current
 * working directory.
 */
module Effects {
  import opened Wrappers
  import opened FileSystem
  import opened Names
  import opened Dispatch

  /** Tags of the diagnostics printed before the launcher stops. */
  datatype Message = BadName(reason: NameError) | Usage(error: UsageError) | Canceled | InstallFailed

  datatype Effect =
    | ShowVersions(tool: string, local: Option<string>)   // own version, and the local framework's if readable
    | RunLocalCli                                        // the local module's `run()` takes over
    | Report(message: Message)
    | Confirm(name: string)                              // the "already exists, continue?" prompt
    | MakeDir(dir: Path)
    | WriteManifest(file: Path, manifest: Manifest)
    | ChangeDir(dir: Path)
    | Install(target: string, verbose: bool)             // the `npm install --save --save-exact` subprocess
    | CallInit(root: Path, projectName: string)          // the local module's `init(root, projectName)`
    | Exit(code: int)

  /** Effects after which the launcher does nothing more. */
  predicate IsTerminal(e: Effect) {
    e.RunLocalCli? || e.CallInit? || e.Exit?
  }

  /** A terminal effect, if any, comes last. */
  predicate Sequenced(t: seq<Effect>) {
    forall i :: 0 <= i < |t| - 1 ==> !IsTerminal(t[i])
  }

  /** Effects that change the filesystem or the working directory. */
  predicate Mutates(e: Effect) {
    e.MakeDir? || e.WriteManifest? || e.ChangeDir?
  }

  /** The trace creates directory `d`. */
  predicate MakesDir(t: seq<Effect>, d: Path) {
    exists i :: 0 <= i < |t| && t[i] == MakeDir(d)
  }

  /** The trace writes a manifest to `f`. */
  predicate WritesManifest(t: seq<Effect>, f: Path) {
    exists i :: 0 <= i < |t| && t[i].WriteManifest? && t[i].file == f
  }

  /** The trace reports message `m`. */
  predicate Reports(t: seq<Effect>, m: Message) {
    exists i :: 0 <= i < |t| && t[i] == Report(m)
  }

  /** The only install in the trace, if any, is at index `k`. */
  predicate InstallsOnlyAt(t: seq<Effect>, k: int) {
    forall j :: 0 <= j < |t| && j != k ==> !t[j].Install?
  }

  /** `install` happens exactly once, straight after changing into `dir`, and no other install happens. */
  predicate InstallsOnceIn(t: seq<Effect>, dir: Path, install: Effect) {
    exists k :: 1 <= k < |t| && t[k - 1] == ChangeDir(dir) && t[k] == install && InstallsOnlyAt(t, k)
  }

  predicate Prompts(t: seq<Effect>) {
    exists i :: 0 <= i < |t| && t[i].Confirm?
  }

  predicate Installs(t: seq<Effect>) {
    exists i :: 0 <= i < |t| && t[i].Install?
  }

  predicate CallsInit(t: seq<Effect>) {
    exists i :: 0 <= i < |t| && t[i].CallInit?
  }

  predicate Exits(t: seq<Effect>) {
    exists i :: 0 <= i < |t| && t[i].Exit?
  }

  /** The exit status the trace ends with, if it ends with an explicit exit. */
  function ExitStatus(t: seq<Effect>): Option<int> {
    if |t| > 0 && t[|t| - 1].Exit? then Some(t[|t| - 1].code) else None
  }

  datatype State = State(fs: Fs, cwd: Path)

  /** One effect applied to the state; effects other than `Mutates` ones leave it alone. */
  function Step(s: State, e: Effect): (r: State)
    ensures s.fs.paths <= r.fs.paths
    ensures Wf(s.fs) ==> Wf(r.fs)
    ensures !Mutates(e) ==> r == s
    ensures !e.ChangeDir? ==> r.cwd == s.cwd
  {
    match e
    case MakeDir(d) => s.(fs := s.fs.(paths := s.fs.paths + {d}))
    case WriteManifest(f, m) => s.(fs := Fs(s.fs.paths + {f}, s.fs.manifests[f := m]))
    case ChangeDir(d) => s.(cwd := d)
    case _ => s
  }

  /** The state after the effects of `t`, in order. Paths are never removed. */
  function Replay(t: seq<Effect>, s: State): (r: State)
    ensures s.fs.paths <= r.fs.paths
    ensures Wf(s.fs) ==> Wf(r.fs)
    decreases |t|
  {
    if |t| == 0 then s else Replay(t[1..], Step(s, t[0]))
  }

  /** Replaying a concatenation replays its parts one after the other. */
  lemma {:induction false} ReplayAppend(a: seq<Effect>, b: seq<Effect>, s: State)
    ensures Replay(a + b, s) == Replay(b, Replay(a, s))
    decreases |a|
  {
    if |a| > 0 {
      assert (a + b)[1..] == a[1..] + b;
      ReplayAppend(a[1..], b, Step(s, a[0]));
    } else {
      assert a + b == b;
    }
  }

  /** Replaying one effect is one step. */
  lemma ReplaySingle(e: Effect, s: State)
    ensures Replay([e], s) == Step(s, e)
  {
  }

  /** A trace with no mutating effect leaves the state as it was. */
  lemma {:induction false} ReplayInert(t: seq<Effect>, s: State)
    requires forall i :: 0 <= i < |t| ==> !Mutates(t[i])
    ensures Replay(t, s) == s
    decreases |t|
  {
    if |t| > 0 {
      ReplayInert(t[1..], Step(s, t[0]));
    }
  }

  /** Each element of a concatenation comes from its left part or its right part. */
  lemma IndexOfAppend(a: seq<Effect>, b: seq<Effect>)
    ensures forall i :: 0 <= i < |a + b| ==> (a + b)[i] == if i < |a| then a[i] else b[i - |a|]
  {
  }

  /** A trace ends with the exit status of its non-empty last part. */
  lemma ExitStatusOfAppend(a: seq<Effect>, b: seq<Effect>)
    requires |b| > 0
    ensures ExitStatus(a + b) == ExitStatus(b)
  {
    assert (a + b)[|a + b| - 1] == b[|b| - 1];
  }

  /** A concatenation creates and writes exactly what its parts do. */
  lemma MarksOfAppend(a: seq<Effect>, b: seq<Effect>, d: Path, f: Path)
    ensures MakesDir(a + b, d) <==> MakesDir(a, d) || MakesDir(b, d)
    ensures WritesManifest(a + b, f) <==> WritesManifest(a, f) || WritesManifest(b, f)
  {
    IndexOfAppend(a, b);
    if MakesDir(a, d) {
      var k :| 0 <= k < |a| && a[k] == MakeDir(d);
      assert (a + b)[k] == a[k];
    }
    if MakesDir(b, d) {
      var k :| 0 <= k < |b| && b[k] == MakeDir(d);
      assert (a + b)[|a| + k] == b[k];
    }
    if WritesManifest(a, f) {
      var k :| 0 <= k < |a| && a[k].WriteManifest? && a[k].file == f;
      assert (a + b)[k] == a[k];
    }
    if WritesManifest(b, f) {
      var k :| 0 <= k < |b| && b[k].WriteManifest? && b[k].file == f;
      assert (a + b)[|a| + k] == b[k];
    }
  }

  /** A concatenation reports exactly what its parts report. */
  lemma ReportsOfAppend(a: seq<Effect>, b: seq<Effect>, m: Message)
    ensures Reports(a + b, m) <==> Reports(a, m) || Reports(b, m)
  {
    IndexOfAppend(a, b);
    if Reports(a + b, m) {
      var k :| 0 <= k < |a + b| && (a + b)[k] == Report(m);
      if k >= |a| {
        assert b[k - |a|] == Report(m);
      }
    }
    if Reports(b, m) {
      var k :| 0 <= k < |b| && b[k] == Report(m);
      assert (a + b)[|a| + k] == b[k];
    }
  }

  /**
   * Steps that change nothing around a middle part: the whole replays, creates
   * and writes exactly as the middle part does.
   */
  lemma InertAround(c: seq<Effect>, p: seq<Effect>, tail: seq<Effect>, s: State, d: Path, f: Path)
    requires forall i :: 0 <= i < |c| ==> !Mutates(c[i])
    requires forall i :: 0 <= i < |tail| ==> !Mutates(tail[i])
    ensures Replay(c + p + tail, s) == Replay(p, s)
    ensures MakesDir(c + p + tail, d) <==> MakesDir(p, d)
    ensures WritesManifest(c + p + tail, f) <==> WritesManifest(p, f)
  {
    MarksOfAppend(c, p, d, f);
    MarksOfAppend(c + p, tail, d, f);
    ReplayAppend(c, p, s);
    ReplayInert(c, s);
    ReplayAppend(c + p, tail, s);
    ReplayInert(tail, Replay(c + p, s));
  }

  /**
   * A part ending with a chdir into `d` and then `install`, with no other
   * install, followed by a part with no install, installs once in `d`.
   */
  lemma InstallOnceOfAppend(a: seq<Effect>, b: seq<Effect>, d: Path, install: Effect)
    requires |a| >= 2 && a[|a| - 2] == ChangeDir(d) && a[|a| - 1] == install
    requires forall i :: 0 <= i < |a| - 1 ==> !a[i].Install?
    requires forall i :: 0 <= i < |b| ==> !b[i].Install?
    ensures InstallsOnceIn(a + b, d, install)
  {
    IndexOfAppend(a, b);
    var k := |a| - 1;
    assert (a + b)[k - 1] == ChangeDir(d) && (a + b)[k] == install;
    assert InstallsOnlyAt(a + b, k);
  }

  /**
   * Non-terminal steps followed by one final step: that step comes last, no
   * earlier step is terminal, and the trace exits exactly when it does.
   */
  lemma EndsWith(a: seq<Effect>, e: Effect)
    requires forall i :: 0 <= i < |a| ==> !IsTerminal(a[i])
    ensures (a + [e])[|a|] == e
    ensures forall i :: 0 <= i < |a| ==> (a + [e])[i] == a[i]
    ensures Exits(a + [e]) <==> e.Exit?
  {
    assert (a + [e])[|a|] == e;
    if Exits(a + [e]) {
      var k :| 0 <= k < |a + [e]| && (a + [e])[k].Exit?;
      if k < |a| {
        assert (a + [e])[k] == a[k];
      }
    }
  }

  /** Prefixing non-terminal effects keeps a trace sequenced. */
  lemma SequencedAppend(a: seq<Effect>, b: seq<Effect>)
    requires forall i :: 0 <= i < |a| ==> !IsTerminal(a[i])
    requires Sequenced(b)
    ensures Sequenced(a + b)
  {
  }
}

=== FILE: filesystem.dfy ===
/**
 * The abstract filesystem the launcher inspects and changes: a set of
 * existing paths and the manifests (`package.json` contents) stored at some
 * of them. Paths are absolute, as sequences of segments.
 */
module FileSystem {

  type Path = seq<string>

  /** The framework package the launcher delegates to and installs. */
  const PackageName: string := "react-web"

  /** A name that `path.resolve` joins to a directory as exactly one new segment. */
  predicate IsPlainSegment(name: string) {
    name != "" && name != "." && name != ".." && '/' !in name
  }

  /** `path.basename`: the last segment, or "" for the root. */
  function Basename(p: Path): string {
    if |p| == 0 then "" else p[|p| - 1]
  }

  /**
   * `path.resolve(cwd, name)` for a name that is one plain segment, which is
   * the only kind of name that reaches it once validated.
   */
  function Resolve(cwd: Path, name: string): Path
    requires IsPlainSegment(name)
  {
    cwd + [name]
  }

  /** The manifest record the launcher writes and the fields it reads back. */
  datatype Manifest = Manifest(name: string, version: string, isPrivate: bool)

  /** The version placeholder of a freshly written manifest. */
  const InitialVersion: string := "0.0.1"

  /** The minimal manifest written for a new project: unpublishable, at the placeholder version. */
  function NewManifest(projectName: string): Manifest {
    Manifest(projectName, InitialVersion, true)
  }

  datatype Fs = Fs(paths: set<Path>, manifests: map<Path, Manifest>)

  /** Every stored manifest sits at an existing path. */
  predicate Wf(fs: Fs) {
    fs.manifests.Keys <= fs.paths
  }

  function ManifestPath(root: Path): Path {
    root + ["package.json"]
  }

  /** A file of the locally installed framework package under `cwd`. */
  function LocalPackageFile(cwd: Path, file: string): Path {
    cwd + ["node_modules", PackageName, file]
  }

  /** Where the local command module is looked for. */
  function CliModulePath(cwd: Path): Path {
    LocalPackageFile(cwd, "cli.js")
  }

  /** Where the local framework's manifest is read for the version query. */
  function LocalManifestPath(cwd: Path): Path {
    LocalPackageFile(cwd, "package.json")
  }
}

=== FILE: install.dfy ===
/**
 * `getInstallPackage`: the target handed to `npm install`, from the optional
 * `--version` value. node-semver's `valid` is a parameter of the model: it
 * returns the normalised version, or None for anything it refuses.
 */
module Install {
  import opened Wrappers
  import opened Dispatch
  import opened FileSystem

  /** The prefix of a pinned install target, `react-web@`. */
  const PinPrefix: string := PackageName + "@"

  /**
   * What `semver.valid` yields for the option value, read for truthiness:
   * only strings are parsed (anything else gives null), and an empty result
   * would be falsy.
   */
  function SemverOf(pkg: ArgValue, semverValid: string -> Option<string>): (r: Option<string>)
    ensures r.Some? ==> pkg.Text? && r == semverValid(pkg.s) && r.value != ""
    ensures pkg.Text? && semverValid(pkg.s).Some? && semverValid(pkg.s).value != "" ==> r.Some?
  {
    match pkg
    case Text(s) =>
      (match semverValid(s)
       case Some(v) => if v != "" then Some(v) else None
       case None => None)
    case _ => None
  }

  /** The version pinned by a target of the form `react-web@<version>`, if it has that form. */
  function PinnedVersion(target: string): Option<string> {
    if |PinPrefix| <= |target| && target[..|PinPrefix|] == PinPrefix
    then Some(target[|PinPrefix|..])
    else None
  }

  /**
   * A semver-valid value pins the package at its normalised version; any
   * other truthy value is used verbatim (a tarball or a path); without one,
   * the unpinned package is installed. A bare `--version` flag is the value
   * `true`, which reaches the install command as the text `true`.
   */
  function GetInstallPackage(pkg: ArgValue, semverValid: string -> Option<string>): (target: string)
    ensures target != ""
    ensures SemverOf(pkg, semverValid).Some? ==> PinnedVersion(target) == SemverOf(pkg, semverValid)
    ensures SemverOf(pkg, semverValid).None? && pkg.Text? && pkg.s != "" ==> target == pkg.s
    ensures SemverOf(pkg, semverValid).None? && !Truthy(pkg) ==> target == PackageName
    ensures pkg == Flag(true) ==> target == "true"
  {
    match SemverOf(pkg, semverValid)
    case Some(v) =>
      assert (PinPrefix + v)[..|PinPrefix|] == PinPrefix;
      assert (PinPrefix + v)[|PinPrefix|..] == v;
      PinPrefix + v
    case None =>
      match pkg
      case Text(s) => if s != "" then s else PackageName
      case Flag(b) => if b then "true" else PackageName
      case Absent => PackageName
  }

  /** A semver-valid `--version` is installed at the normalised version, not the raw text. */
  lemma PinsNormalisedVersion(raw: string, normalised: string, semverValid: string -> Option<string>)
    requires semverValid(raw) == Some(normalised) && normalised != ""
    ensures GetInstallPackage(Text(raw), semverValid) == PackageName + "@" + normalised
  {
  }

  /** Without a usable `--version` value the unpinned package is installed. */
  lemma DefaultsToUnpinned(semverValid: string -> Option<string>)
    requires semverValid("") == None
    ensures GetInstallPackage(Absent, semverValid) == PackageName
    ensures GetInstallPackage(Text(""), semverValid) == PackageName
  {
  }
}

=== FILE: launcher.dfy ===
/**
 * The whole launcher run: dispatch on the parsed arguments, with the local
 * command module's existence read from the filesystem, then the chosen path.
 */
module Launcher {
  import opened Wrappers
  import opened FileSystem
  import opened Dispatch
  import opened Effects
  import opened Bootstrap
  import opened Names

  /** The local command module is present under the working directory. */
  predicate LocalCliExists(env: Env) {
    CliModulePath(env.cwd) in env.fs.paths
  }

  /** The local framework's version, when its manifest can be read. */
  function LocalVersion(env: Env): (v: Option<string>)
    ensures v.Some? <==> LocalManifestPath(env.cwd) in env.fs.manifests
    ensures v.Some? ==> v.value == env.fs.manifests[LocalManifestPath(env.cwd)].version
  {
    var p := LocalManifestPath(env.cwd);
    if p in env.fs.manifests then Some(env.fs.manifests[p].version) else None
  }

  /** One run of the launcher, as the effects it produces. */
  function Launch(a: Args, env: Env): (t: seq<Effect>)
    ensures |t| > 0 && Sequenced(t)
    ensures t == [RunLocalCli] <==> !IsVersionQuery(a) && LocalCliExists(env)
    ensures ExitStatus(t) == Some(1) ==> !CallsInit(t)
  {
    match Decide(a, LocalCliExists(env))
    case ShowVersion => [ShowVersions(env.toolVersion, LocalVersion(env)), Exit(0)]
    case Delegate => [RunLocalCli]
    case Reject(e) => [Report(Usage(e)), Exit(1)]
    case StartInit(name, verbose, pkg) =>
      var steps := Init(name, verbose, pkg, env);
      assert steps != [RunLocalCli] by {
        if Proceeds(name, env) {
          InstallOutcomes(name, verbose, pkg, env);
          ProceedScaffolds(name, verbose, pkg, env);
        }
      }
      assert ExitStatus(steps) == Some(1) ==> !CallsInit(steps) by {
        if Proceeds(name, env) {
          InstallOutcomes(name, verbose, pkg, env);
        }
      }
      steps
  }

  /**
   * The version query prints the launcher's version and the local
   * framework's (or the fallback when its manifest cannot be read) and exits
   * with status 0, whether or not a local command module exists.
   */
  lemma VersionQueryAnswered(a: Args, env: Env)
    requires IsVersionQuery(a)
    ensures Launch(a, env) == [ShowVersions(env.toolVersion, LocalVersion(env)), Exit(0)]
  {
  }

  /**
   * The version query reads nothing but the two versions: runs that differ
   * in the local command module, the prompt answer, the install result, the
   * verbose flag or any other file give the same output, and none changes the state.
   */
  lemma VersionQueryReadsOnlyVersions(a: Args, b: Args, env: Env, env': Env)
    requires IsVersionQuery(a) && IsVersionQuery(b)
    requires env.toolVersion == env'.toolVersion
    requires LocalManifestPath(env.cwd) == LocalManifestPath(env'.cwd)
    requires var p := LocalManifestPath(env.cwd);
      (p in env.fs.manifests <==> p in env'.fs.manifests)
      && (p in env.fs.manifests ==> env.fs.manifests[p].version == env'.fs.manifests[p].version)
    ensures Launch(a, env) == Launch(b, env')
    ensures Replay(Launch(a, env), Start(env)) == Start(env)
  {
    ReplayInert(Launch(a, env), Start(env));
  }

  /**
   * With a local command module and no version query, the module's `run()`
   * takes over and nothing is validated, prompted, written or installed.
   */
  lemma DelegationOnly(a: Args, env: Env)
    requires !IsVersionQuery(a) && LocalCliExists(env)
    ensures var t := Launch(a, env);
      && t == [RunLocalCli]
      && Replay(t, Start(env)) == Start(env)
      && !Prompts(t) && !Installs(t)
  {
  }

  /** Without a local command module, anything but `init <name>` is a usage error with status 1. */
  lemma UsageErrorsExit(a: Args, env: Env)
    requires !IsVersionQuery(a) && !LocalCliExists(env) && !IsInitCommand(a.commands)
    ensures var t := Launch(a, env);
      && Decide(a, false).Reject?
      && t == [Report(Usage(Decide(a, false).error)), Exit(1)]
      && Replay(t, Start(env)) == Start(env)
  {
    ReplayInert(Launch(a, env), Start(env));
  }

  /** Only `init <name>`, without a local command module, reaches the bootstrap. */
  lemma OnlyInitBootstraps(a: Args, env: Env)
    ensures var t := Launch(a, env);
      (Prompts(t) || Installs(t) || Replay(t, Start(env)) != Start(env)) ==>
        && !IsVersionQuery(a) && !LocalCliExists(env) && IsInitCommand(a.commands)
        && t == Init(a.commands[1], Truthy(a.verbose), a.version, env)
  {
    var t := Launch(a, env);
    if !(!IsVersionQuery(a) && !LocalCliExists(env) && IsInitCommand(a.commands)) {
      ReplayInert(t, Start(env));
    }
  }

  /** Runs that end with exit status 1: usage errors, refused names and failed non-verbose installs. */
  predicate FailsRun(a: Args, env: Env) {
    match Decide(a, LocalCliExists(env))
    case Reject(_) => true
    case StartInit(name, verbose, _) =>
      ValidatePackageName(name).Some? || (Proceeds(name, env) && env.installExit != 0 && !verbose)
    case _ => false
  }

  /** Runs that end with exit status 0: the version query and a declined prompt. */
  predicate EndsQuietly(a: Args, env: Env) {
    match Decide(a, LocalCliExists(env))
    case ShowVersion => true
    case StartInit(name, _, _) =>
      ValidatePackageName(name).None? && Resolve(env.cwd, name) in env.fs.paths && !Confirms(env.answer)
    case _ => false
  }

  /**
   * The launcher's explicit exit statuses: 1 exactly for the failing runs,
   * 0 exactly for the version query and a declined prompt, and no exit call
   * otherwise (delegation, a handed-off `init`, a failed verbose install).
   */
  lemma ExitStatuses(a: Args, env: Env)
    ensures var t := Launch(a, env);
      && (ExitStatus(t) == Some(1) <==> FailsRun(a, env))
      && (ExitStatus(t) == Some(0) <==> EndsQuietly(a, env))
      && (ExitStatus(t).None? || ExitStatus(t) == Some(0) || ExitStatus(t) == Some(1))
  {
    match Decide(a, LocalCliExists(env))
    case StartInit(name, verbose, pkg) => InitExitStatus(name, verbose, pkg, env);
    case _ =>
  }
}

=== FILE: names.dfy ===
/**
 * Project-name validation of the launcher (`validatePackageName`).
 *
 * `validatePackageName` tests the name against the anchored,
 * case-insensitive pattern `^[$A-Z_][0-9A-Z_$]*$` and then rejects the
 * reserved word `React`. Without
 * the Unicode flag, JavaScript's case-insensitive matching never maps a
 * non-ASCII character onto an ASCII one, so the pattern accepts exactly the
 * ASCII letters of either case, the digits (after the first position), `_`
 * and `$`.
 */
module Names {
  import opened Wrappers

  /** The framework's top-level export name, which no project may take. */
  const ReservedName: string := "React"

  predicate IsAsciiLetter(c: char) {
    'a' <= c <= 'z' || 'A' <= c <= 'Z'
  }

  predicate IsDigit(c: char) {
    '0' <= c <= '9'
  }

  /** The class `[$A-Z_]` under the case-insensitive flag. */
  predicate IsIdentStart(c: char) {
    IsAsciiLetter(c) || c == '_' || c == '$'
  }

  /** The class `[0-9A-Z_$]` under the case-insensitive flag. */
  predicate IsIdentPart(c: char) {
    IsIdentStart(c) || IsDigit(c)
  }

  /** Character-level statement of a valid identifier: the reference definition. */
  predicate IsIdentifier(s: string) {
    && |s| > 0
    && IsIdentStart(s[0])
    && forall i :: 1 <= i < |s| ==> IsIdentPart(s[i])
  }

  /** The starred class `[0-9A-Z_$]*` followed by the end anchor, consuming `s` from the left. */
  predicate MatchPartStar(s: string)
    decreases |s|
  {
    |s| == 0 || (IsIdentPart(s[0]) && MatchPartStar(s[1..]))
  }

  /** The whole anchored pattern as a left-to-right matcher. */
  predicate MatchPattern(s: string) {
    |s| > 0 && IsIdentStart(s[0]) && MatchPartStar(s[1..])
  }

  /** The star loop accepts a string exactly when every character is in its class. */
  lemma {:induction false} PartStarAccepts(s: string)
    ensures MatchPartStar(s) <==> forall i :: 0 <= i < |s| ==> IsIdentPart(s[i])
  {
    if |s| > 0 {
      PartStarAccepts(s[1..]);
      assert forall i :: 1 <= i < |s| ==> s[i] == s[1..][i - 1];
    }
  }

  /** The matcher and the character-level definition agree on every string. */
  lemma PatternIsIdentifier(s: string)
    ensures MatchPattern(s) <==> IsIdentifier(s)
  {
    if |s| > 0 {
      PartStarAccepts(s[1..]);
      assert forall i :: 1 <= i < |s| ==> s[i] == s[1..][i - 1];
    }
  }

  /** Why a name is refused; either refusal ends the process with status 1. */
  datatype NameError = NotIdentifier | Reserved

  /**
   * `validatePackageName`: None when the name may be used, otherwise the
   * first check that refused it. The pattern is tested before the reserved word.
   */
  function ValidatePackageName(name: string): (r: Option<NameError>)
    ensures r.None? <==> IsIdentifier(name) && name != ReservedName
    ensures r == Some(NotIdentifier) <==> !IsIdentifier(name)
    ensures r == Some(Reserved) <==> name == ReservedName
  {
    PatternIsIdentifier(name);
    assert IsIdentifier(ReservedName) by {
      assert forall i :: 1 <= i < |ReservedName| ==> IsAsciiLetter(ReservedName[i]);
    }
    if !MatchPattern(name) then Some(NotIdentifier)
    else if name == ReservedName then Some(Reserved)
    else None
  }

  /** The pattern test as a single scan over the characters of the name. */
  method ScanIdentifier(name: string) returns (ok: bool)
    ensures ok <==> IsIdentifier(name)
  {
    if |name| == 0 || !IsIdentStart(name[0]) {
      return false;
    }
    var i := 1;
    while i < |name|
      invariant 1 <= i <= |name|
      invariant forall j :: 1 <= j < i ==> IsIdentPart(name[j])
    {
      if !IsIdentPart(name[i]) {
        return false;
      }
      i := i + 1;
    }
    return true;
  }

  /** The reserved-word check compares exactly: other spellings are ordinary identifiers. */
  lemma ReservedWordIsCaseSensitive()
    ensures ValidatePackageName("React") == Some(Reserved)
    ensures ValidatePackageName("react") == None
    ensures ValidatePackageName("REACT") == None
  {
  }
}

=== FILE: wrappers.dfy ===
/** The optional value shared by the launcher modules. */
module Wrappers {

  /** A value that may be missing, as JavaScript's `null` or `undefined` against a present value. */
  datatype Option<+T> = None | Some(value: T)
}
